=== FILE: README.md ===
# Trivia API question logic, modelled in Dafny

This project models the selection logic of a small Flask/SQLAlchemy trivia backend
(`backend/flaskr/__init__.py`). It covers:

- the pager `get_paginated_questions`: the `page` query argument read with `type=int`, then a
  Python slice of ten records;
- the endpoints that list, delete, create, search and filter questions by category;
- the quiz endpoint that picks the next question.

The database is two maps keyed by primary key (`Store.Db`). The ORM queries are filters over the
id-ordered listing of the question table. Each endpoint is a pure function from the database to
its reply and the database it leaves behind. The random quiz pick is a nondeterministic choice in
a method.

Files and modules:

- `wrappers.dfy` (`Wrappers`): `Option`, `Result`, and the HTTP statuses the endpoints abort with.
- `pyint.dfy` (`PyInt`): Python's `str(n)` and `int(text)` for integers, on ASCII text.
- `pyslice.dfy` (`PySlice`): Python's step-1 slice `s[i:j]`, with negative bounds and clamping.
- `paging.dfy` (`Paging`): `TRIVIA_PER_PAGE`, the page argument and the pager.
- `text.dfy` (`Text`): case-insensitive substring search, i.e. `ILIKE '%term%'`.
- `store.dfy` (`Store`): rows, tables, `order_by(id).all()`, `filter`, `get`, `insert` and `delete`.
- `trivia.dfy` (`Trivia`): GET /questions, DELETE /questions/<id>, POST /questions and
  GET /categories/<id>/questions.
- `quiz.dfy` (`Quiz`): POST /quizzes.

Four behaviours of the code a reader may not expect, all modelled as the code has them:

- A non-empty quiz body without `previous_questions` or `quiz_category` is not a 400 here. The key
  lookup raises outside any `try`, so Flask answers 500.
- An empty quiz pool is not a 404. `random.choice` raises IndexError, which is also a 500. The 404
  check after the pick can never fire, because the picked record is never falsy.
- A non-numeric `page` is not rejected. It falls back to page 1.
- An empty search term (`searchTerm: ""`) does not search. `if search_term:` treats it as false,
  so the request creates a question.

## Model

| member | source | states |
|---|---|---|
| PySlice.Adjust | backend/flaskr/__init__.py:17 | a slice bound inside the list is kept, a negative bound counts from the end, and a bound beyond either end clamps to that end |
| PySlice.Slice | backend/flaskr/__init__.py:17 | a slice is the run of the list that starts at the adjusted lower bound, and it is no longer than the distance between the bounds |
| PySlice.SliceSelects | backend/flaskr/__init__.py:17 | a slice holds the items between the adjusted bounds, none when they cross, and only items of the list |
| PySlice.SliceJoin | backend/flaskr/__init__.py:17 | for non-negative bounds, slices that meet end to end join into the slice spanning both |
| PySlice.SliceFromEnd | backend/flaskr/__init__.py:17 | a negative bound denotes the same position as that bound plus the length |
| PyInt.Parse | backend/flaskr/__init__.py:12 | `int()` of a page argument: every number it returns has at most 4300 digits, the most `str()` and `int()` handle; longer numerals are rejected |
| PyInt.ShowInt | backend/flaskr/__init__.py:125 | `str(n)`: non-empty, starts with '-' exactly for negative numbers, and is otherwise all digits |
| PyInt.ParseShowInt | backend/flaskr/__init__.py:12 | `int(str(n)) == n` for every integer n of at most 4300 digits |
| PyInt.ShowIntInjective | backend/flaskr/__init__.py:125 | two category ids print as the same text exactly when they are equal |
| PyInt.ParseExamples | backend/flaskr/__init__.py:12 | examples: `int()` reads " 12\n", "\t1\x0b", "-3", "+007" and "1_000" as 12, 1, -3, 7 and 1000 |
| PyInt.RejectExamples | backend/flaskr/__init__.py:12 | examples: `int()` rejects "", "2.5", "1__0", "abc" and "\x1c1" (the separator \x1c is not stripped) |
| PyInt.ShowNat | backend/flaskr/__init__.py:125 | the decimal text of a natural number is non-empty, all digits, and has no leading zero |
| Paging.Paginate | backend/flaskr/__init__.py:9-19 | a page holds at most TRIVIA_PER_PAGE = 10 records, all taken from the list |
| Paging.PageNumber | backend/flaskr/__init__.py:12 | the page is the number `int()` reads from the argument, or 1 when the argument is missing or `int()` rejects it; it is always printable |
| Paging.PageNumberOfNumeral | backend/flaskr/__init__.py:12 | a page number of at most 4300 digits written into the query string is the page served |
| Paging.OverlongPageIsFirst | backend/flaskr/__init__.py:12 | a page numeral of more than 4300 digits is rejected by `int()` and serves page 1 |
| Paging.MalformedPageIsFirst | backend/flaskr/__init__.py:12 | a missing page argument, or one `int()` rejects, serves page 1 |
| Paging.PageForward | backend/flaskr/__init__.py:13-17 | from page 1 on, a page is the contiguous run starting at (page-1)*10, cut short by the end of the list |
| Paging.PageEmptyIff | backend/flaskr/__init__.py:13-17 | from page 1 on, a page is empty exactly when (page-1)*10 is at or past the end; no page raises |
| Paging.PageZeroIsEmpty | backend/flaskr/__init__.py:12-17 | page 0 is `items[-10:0]` and is always empty |
| Paging.NegativePage | backend/flaskr/__init__.py:13-17 | a negative page counts both bounds from the end of the list, clamped at its start |
| Paging.NegativePageWraps | backend/flaskr/__init__.py:13-17 | with exactly m full pages, negative page p serves the same records as page p+m |
| Paging.EveryRecordHasPage | backend/flaskr/__init__.py:13-17 | the record at index i is served on page i/10 + 1 |
| Paging.PagesArePrefix | backend/flaskr/__init__.py:13-17 | pages 1..k concatenated in order are the first 10k records of the list |
| Paging.PagesCoverList | backend/flaskr/__init__.py:13-17 | pages 1 through the last non-empty one, concatenated, reproduce the whole list |
| Text.Contains | backend/flaskr/__init__.py:97 | the scan reports a match exactly when the term occurs at some position of the text |
| Text.ContainsIgnoringCase | backend/flaskr/__init__.py:97 | `ILIKE '%term%'` holds exactly when the case-folded term occurs at some position of the case-folded text; the empty term matches everything |
| Text.CaseDoesNotMatter | backend/flaskr/__init__.py:97 | re-casing the search term or the text does not change whether it matches |
| Text.FoundInside | backend/flaskr/__init__.py:97 | a text that contains the term, with anything around it, matches |
| Text.ElephantExample | backend/flaskr/__init__.py:97 | searching "elephant" finds a question that says "Elephant" |
| Text.AbsentExample | backend/flaskr/__init__.py:97 | example: "bee" does not match "Ant" |
| Store.SortedIds | backend/flaskr/__init__.py:50 | the keys listed in strictly ascending order, each exactly once |
| Store.AllById | backend/flaskr/__init__.py:50 | `order_by(Question.id).all()` lists every stored row exactly once, in strictly ascending id order, and nothing else |
| Store.ListedOnce | backend/flaskr/__init__.py:110 | a stored row appears in the ordered listing at exactly one position |
| Store.Filter | backend/flaskr/__init__.py:126 | a filter keeps exactly the records of the list that satisfy the condition |
| Store.FilterKeepsOrder | backend/flaskr/__init__.py:126 | filtering an id-ordered list keeps it id-ordered |
| Store.CountDistinctIds | backend/flaskr/__init__.py:132 | a list with strictly increasing ids has as many records as distinct ids |
| Store.FilteredCount | backend/flaskr/__init__.py:132 | the length of a filtered listing is the number of stored rows that satisfy the filter |
| Store.Get | backend/flaskr/__init__.py:76 | `query.get(id)` finds a row exactly when the id is stored, and returns that row |
| Store.Insert | backend/flaskr/__init__.py:107-108 | an insert fails exactly when the key is taken; otherwise it adds that one row and keeps all others |
| Store.Remove | backend/flaskr/__init__.py:77 | a delete drops exactly the row under that id and keeps all others |
| Trivia.Placeholder | backend/flaskr/__init__.py:57 | the seeded row has the requested id and a category that is not the printed form of any category id |
| Trivia.CategoryLabels | backend/flaskr/__init__.py:62-64 | the category map has one entry per category id, holding that category's type |
| Trivia.GetQuestions | backend/flaskr/__init__.py:48-71 | the listing reports the total row count and the requested page of the table as it was on entry, plus every category's label; the table changes only when the page is empty, by the placeholder row; a failed seed is a 404 |
| Trivia.EmptyPageSeedsOnePlaceholder | backend/flaskr/__init__.py:55-60 | an empty page adds exactly one row, in category "delete me", and leaves every other row alone, while the reply still counts the old rows |
| Trivia.PageZeroAlwaysSeeds | backend/flaskr/__init__.py:53-60 | every `?page=0` request returns no questions and adds a placeholder, however many questions exist |
| Trivia.ListingIsReadOnlyIff | backend/flaskr/__init__.py:53-60 | from page 1 on, the listing leaves the database unchanged exactly when the page starts inside the list |
| Trivia.DeleteQuestion | backend/flaskr/__init__.py:73-83 | deleting succeeds exactly when the id is stored, removes that row and nothing else; otherwise 404 |
| Trivia.DeleteTwice | backend/flaskr/__init__.py:73-83 | deleting the same id twice succeeds, then reports 404 |
| Trivia.PostQuestion | backend/flaskr/__init__.py:85-120 | no body is a 500; a non-empty term searches without changing the database, returning exactly the requested page of the id-ordered match list (so at most 10 stored questions that contain the term) and the count of all matching rows; otherwise the question is created under the fresh id, the reply names it, serves the requested page of the new listing and counts one more row, and a failed insert is a 422 |
| Trivia.SearchFindsEveryMatch | backend/flaskr/__init__.py:96-98 | every stored question containing the term is in the match list the search pages through, and is served on some page of it |
| Trivia.EmptyTermCreates | backend/flaskr/__init__.py:93-108 | an empty search term creates a question instead of searching |
| Trivia.CreatedIsListedOnce | backend/flaskr/__init__.py:107-118 | the created row can be fetched by the id in the reply and appears exactly once in the id-ordered listing |
| Trivia.QuestionsInCategory | backend/flaskr/__init__.py:122-137 | the reply names the category as text and returns exactly the requested page of the id-ordered selection of that category (at most 10 stored questions, all in it) and counts all of them; an id too long for `str()` would be a 422, a defensive branch no request reaches, since the route's `int()` conversion already refuses such ids |
| Trivia.CategoriesAreDisjoint | backend/flaskr/__init__.py:125-126 | the selections of two different category ids share no question |
| Trivia.CategoryListsEveryMember | backend/flaskr/__init__.py:125-127 | every stored question of a category is served on some page of that category's listing |
| Quiz.Pool | backend/flaskr/__init__.py:147-159 | the pool is exactly the stored questions not asked before and in the requested category, or in any category in the "every category" branch |
| Quiz.NextQuestion | backend/flaskr/__init__.py:139-170 | a falsy body is exactly the 400 case; a missing field is a 500, as a category id too long for `str()` would be (a defensive branch no request reaches, since `int()` and the JSON decoder refuse such numerals first); otherwise a question is returned exactly when the pool is non-empty, and it is a stored, eligible question; 404 is never sent |
| Quiz.EveryCategoryUnreachable | backend/flaskr/__init__.py:145-147 | comparing the category text with the integer 0 is never true, so the "every category" branch is dead |
| Quiz.CategoryZeroFindsNothing | backend/flaskr/__init__.py:145-159 | as written, category 0 with no previous questions yields an empty pool over a database whose only question is in category "1" |
| Quiz.IntendedCategoryZeroOffersAll | backend/flaskr/__init__.py:147-152 | with the intended comparison, category 0 offers every stored question not asked before |

## Findings

| source | as written | input that shows it | evidently intended | confidence | as-written member | corrected member |
|---|---|---|---|---|---|---|
| backend/flaskr/__init__.py:147 | `category_id == 0` compares the text made on line 145 with the integer 0. It is never true, so the "every category" branch is dead and category 0 is matched against the text "0". | quiz_category id 0, previous_questions [], one stored question in category "1": the pool is empty and the request fails with 500 | category 0 means every category: compare with the text "0" (or compare before stringifying) | medium; not executed | Quiz.CategoryZeroFindsNothing | Quiz.IntendedCategoryZeroOffersAll |

`Quiz.NextQuestion` takes a `Rule`. `AsWritten` reproduces line 147. `Intended` uses the corrected
comparison. Its contract holds under both rules.

## Left out

- Routing, JSON (de)serialisation and the response envelopes are not modelled. Replies are records, and failures are the status the endpoint aborts with.
- GET /categories (lines 34-46) is glue over one query. Only the category map that GET /questions returns is modelled (`Trivia.CategoryLabels`).
- CORS set-up and the `after_request` header hook (lines 25-32) are I/O configuration.
- The error handlers (lines 174-229) only shape the error envelope. The 500 and 505 handlers after `return app` are never registered.
- `question.format()` is not modelled: `models` is not part of this model. Pages hold the rows themselves, in the same order the formatted dicts would have.
- Id assignment is not modelled. The caller supplies the key the database would assign (`freshId`), and an insert under a taken key fails the way the source's `except` reports.
- Order of unordered queries: search, category listing and the quiz pool call `.all()` without `order_by`. They are modelled over the id-ordered listing, so their paging order is an assumption.
- `ILIKE` details are not modelled: `%` and `_` in the term acting as wildcards, database collation, and non-ASCII case folding. Matching is ASCII case-folded substring containment.
- `PyInt.Parse` covers ASCII digits and ASCII whitespace only. Python's `int()` also accepts non-ASCII digits and whitespace.
- PyInt.Parse: the 4300-digit limit is CPython's default; a limit changed with `sys.set_int_max_str_digits` or `PYTHONINTMAXSTRDIGITS`, and older Python releases without the limit, are not modelled.
- Randomness: `random.choice` is a nondeterministic pick from the pool. Its distribution is not modelled.
- Type coercion of the `difficulty` and `category` payload fields is not modelled. Difficulty is an integer and category is text.
- Ids in `previous_questions` are integers. Other JSON values in that list are not modelled.
- `int(data['quiz_category']['id'])` is abstracted: the body carries the id already converted, or marks it as missing or unusable.
- `request.get_json()` returning nothing is the body `None`. Flask versions that answer 415 for a wrong content type are not modelled.
- Trivia.QuestionsInCategory: of the faults the `except` on lines 136-137 turns into 422, only `str()` refusing an over-long id is modelled, and the route's own `int()` conversion keeps such ids out, so that branch is unreachable by a request. A storage fault is not modelled, because the in-memory table cannot fail.
- Trivia.GetQuestions: a storage fault while reading the tables is not modelled. Only the failed insert of the placeholder (lines 59-60) reaches the 404.

=== FILE: paging.dfy ===
/** `get_paginated_questions`: reads the `page` query argument and cuts that
    page, ten records long, out of an ordered list with a Python slice. */
module Paging {
  import opened Wrappers
  import PyInt
  import opened PySlice

  /** TRIVIA_PER_PAGE. */
  const TriviaPerPage: nat := 10

  function Min(a: int, b: int): int {
    if a <= b then a else b
  }

  function Max(a: int, b: int): int {
    if a <= b then b else a
  }

  /** `request.args.get('page', 1, type=int)`: the argument converted by
      `int()`, or 1 when it is missing or `int()` rejects it. */
  function PageNumber(arg: Option<string>): (p: int)
    ensures PyInt.Printable(p)
    ensures p != 1 ==> arg.Some? && PyInt.Parse(arg.value) == Some(p)
    ensures arg.Some? && PyInt.Parse(arg.value).Some? ==> p == PyInt.Parse(arg.value).value
  {
    match arg
    case None => 1
    case Some(text) => PyInt.Parse(text).GetOr(1)
  }

  /** First index of a page, before the slice adjusts it. */
  function PageStart(page: int): int {
    (page - 1) * TriviaPerPage
  }

  /** `items[start:end]` with start = (page - 1) * 10 and end = start + 10. */
  function Paginate<T>(page: int, items: seq<T>): (r: seq<T>)
    ensures |r| <= TriviaPerPage
    ensures forall x :: x in r ==> x in items
  {
    SliceSelects(items, PageStart(page), PageStart(page) + TriviaPerPage);
    Slice(items, PageStart(page), PageStart(page) + TriviaPerPage)
  }

  /** A number printed into the query string is the page served. */
  lemma PageNumberOfNumeral(n: int)
    requires PyInt.Printable(n)
    ensures PageNumber(Some(PyInt.ShowInt(n))) == n
  {
    PyInt.ParseShowInt(n);
  }

  /** A missing or malformed `page` serves the first page. */
  lemma MalformedPageIsFirst<T>(arg: Option<string>, items: seq<T>)
    requires arg.None? || PyInt.Parse(arg.value).None?
    ensures Paginate(PageNumber(arg), items) == Paginate(1, items)
  {
  }

  /** A numeral longer than `int()` reads (4300 digits) serves the first page. */
  lemma OverlongPageIsFirst(text: string)
    requires PyInt.Strip(text) == text
    requires PyInt.IsDigitRun(text) && PyInt.DigitCount(text) > PyInt.MaxStrDigits
    ensures PageNumber(Some(text)) == 1
  {
  }

  /** For pages from 1 on, a page is the contiguous run of ten records that
      starts at (page - 1) * 10, cut short by the end of the list. */
  lemma PageForward<T>(page: int, items: seq<T>)
    requires page >= 1
    ensures var n := |items|;
      Paginate(page, items) == items[Min(PageStart(page), n)..Min(PageStart(page) + TriviaPerPage, n)]
  {
  }

  /** For pages from 1 on, a page is empty exactly when it starts at or after
      the end of the list; no page raises. */
  lemma PageEmptyIff<T>(page: int, items: seq<T>)
    requires page >= 1
    ensures Paginate(page, items) == [] <==> PageStart(page) >= |items|
  {
    PageForward(page, items);
  }

  /** Page 0 is `items[-10:0]`, which is always empty. */
  lemma PageZeroIsEmpty<T>(items: seq<T>)
    ensures Paginate(0, items) == []
  {
  }

  /** A negative page p is `items[(p-1)*10 : p*10]` with both bounds counted
      from the end of the list and clamped at its start. */
  lemma NegativePage<T>(page: int, items: seq<T>)
    requires page < 0
    ensures var n := |items|;
      Paginate(page, items) == items[Max(0, n + PageStart(page))..Max(0, n + PageStart(page) + TriviaPerPage)]
  {
  }

  /** When the list holds exactly m full pages, negative page p serves the same
      records as page p + m. */
  lemma NegativePageWraps<T>(page: int, items: seq<T>, m: nat)
    requires |items| == m * TriviaPerPage
    requires page < 0 && page + m >= 1
    ensures Paginate(page, items) == Paginate(page + m, items)
  {
    NegativePage(page, items);
    PageForward(page + m, items);
  }

  /** Every record at index i is served on page i / 10 + 1. */
  lemma EveryRecordHasPage<T>(items: seq<T>, i: int)
    requires 0 <= i < |items|
    ensures items[i] in Paginate(i / TriviaPerPage + 1, items)
  {
    var page := i / TriviaPerPage + 1;
    PageForward(page, items);
    var lo := Min(PageStart(page), |items|);
    assert Paginate(page, items)[i - lo] == items[i];
  }

  /** Pages 1 through k, one after the other. */
  function Pages<T>(items: seq<T>, k: nat): seq<T> {
    if k == 0 then [] else Pages(items, k - 1) + Paginate(k, items)
  }

  /** Pages 1..k in order spell out the first 10 * k records. */
  lemma {:induction false} PagesArePrefix<T>(items: seq<T>, k: nat)
    ensures Pages(items, k) == items[..Min(k * TriviaPerPage, |items|)]
  {
    if k > 0 {
      PagesArePrefix(items, k - 1);
      PageForward(k, items);
      var n := |items|;
      var a := Min((k - 1) * TriviaPerPage, n);
      var b := Min(k * TriviaPerPage, n);
      assert items[..a] + items[a..b] == items[..b];
    }
  }

  /** Walking the pages from 1 until the last non-empty one reproduces the list. */
  lemma PagesCoverList<T>(items: seq<T>)
    ensures Pages(items, (|items| + TriviaPerPage - 1) / TriviaPerPage) == items
  {
    PagesArePrefix(items, (|items| + TriviaPerPage - 1) / TriviaPerPage);
  }
}

=== FILE: pyint.dfy ===
/** Python's `str(n)` and `int(text)` on integers, restricted to ASCII text.
    `str` is used to turn a route's category id into the text stored in the
    category column; `int` is what the query-string parser applies to `page`. */
module PyInt {
  import opened Wrappers

  predicate IsDigit(c: char) {
    '0' <= c <= '9'
  }

  /** ASCII characters that `int()` skips around a numeral: tab through
      carriage return, and the space. */
  predicate IsSpace(c: char) {
    ('\t' <= c <= '\r') || c == ' '
  }

  function DigitValue(c: char): nat {
    if IsDigit(c) then c as int - '0' as int else 0
  }

  function DigitChar(d: nat): (c: char)
    requires d < 10
    ensures IsDigit(c) && DigitValue(c) == d
  {
    (d + '0' as int) as char
  }

  /** Decimal numeral of a natural number, most significant digit first, no padding. */
  function ShowNat(n: nat): (s: string)
    ensures |s| > 0
    ensures forall k :: 0 <= k < |s| ==> IsDigit(s[k])
    ensures n > 0 ==> s[0] != '0'
  {
    if n < 10 then [DigitChar(n)] else ShowNat(n / 10) + [DigitChar(n % 10)]
  }

  /** Python's `str(n)` for an int: a minus sign before negative numbers, then
      the digits. Python refuses to print numbers longer than `MaxStrDigits`
      digits; callers check `Printable` where that matters. */
  function ShowInt(n: int): (s: string)
    ensures |s| > 0
    ensures s[0] == '-' <==> n < 0
    ensures IsDigit(s[0]) || s[0] == '-'
    ensures forall k :: 0 < k < |s| ==> IsDigit(s[k])
  {
    if n < 0 then "-" + ShowNat(-n) else ShowNat(n)
  }

  /** CPython's default limit on the number of decimal digits `int()` reads
      and `str()` writes (sys.int_info.default_max_str_digits). */
  const MaxStrDigits: nat := 4300

  function Abs(n: int): nat {
    if n < 0 then -n else n
  }

  /** `str(n)` succeeds: the number has at most `MaxStrDigits` digits. */
  predicate Printable(n: int) {
    |ShowNat(Abs(n))| <= MaxStrDigits
  }

  function Pow10(d: nat): nat {
    if d == 0 then 1 else 10 * Pow10(d - 1)
  }

  /** The digits of a digit run, underscores not counted. */
  function DigitCount(s: string): nat {
    if s == [] then 0
    else if s[|s| - 1] == '_' then DigitCount(s[..|s| - 1])
    else DigitCount(s[..|s| - 1]) + 1
  }

  function TrimStart(s: string): string {
    if |s| > 0 && IsSpace(s[0]) then TrimStart(s[1..]) else s
  }

  function TrimEnd(s: string): string {
    if |s| > 0 && IsSpace(s[|s| - 1]) then TrimEnd(s[..|s| - 1]) else s
  }

  function Strip(s: string): string {
    TrimEnd(TrimStart(s))
  }

  /** Digits, with single underscores allowed between two digits: the body of a
      base-10 numeral that `int()` accepts (leading zeros included). */
  predicate IsDigitRun(s: string) {
    && |s| > 0
    && IsDigit(s[0])
    && (|s| == 1 || (if s[1] == '_' then IsDigitRun(s[2..]) else IsDigitRun(s[1..])))
  }

  /** The number a digit run denotes; underscores carry no value. */
  function RunValue(s: string): nat {
    if s == [] then 0
    else if s[|s| - 1] == '_' then RunValue(s[..|s| - 1])
    else RunValue(s[..|s| - 1]) * 10 + DigitValue(s[|s| - 1])
  }

  /** A numeral body `int()` accepts: a digit run within the digit limit. */
  predicate Readable(run: string) {
    IsDigitRun(run) && DigitCount(run) <= MaxStrDigits
  }

  /** Python's `int(text)`: `None` where Python raises ValueError. */
  function Parse(text: string): (r: Option<int>)
    ensures r.Some? ==> Printable(r.value)
  {
    var t := Strip(text);
    if |t| > 0 && (t[0] == '+' || t[0] == '-') then
      var magnitude: int := RunValue(t[1..]);
      if Readable(t[1..]) then
        ReadableIsPrintable(t[1..]);
        Some(if t[0] == '-' then -magnitude else magnitude)
      else None
    else if Readable(t) then
      ReadableIsPrintable(t);
      Some(RunValue(t))
    else None
  }

  /** A run of d digits denotes a number below 10^d. */
  lemma {:induction false} RunValueBelow(s: string)
    ensures RunValue(s) < Pow10(DigitCount(s))
  {
    if s != [] {
      var p := s[..|s| - 1];
      RunValueBelow(p);
      if s[|s| - 1] != '_' {
        var v, d := RunValue(p), DigitValue(s[|s| - 1]);
        assert v + 1 <= Pow10(DigitCount(p));
        assert v * 10 + 10 <= Pow10(DigitCount(p)) * 10;
      }
    }
  }

  /** A number below 10^d prints with at most d digits. */
  lemma {:induction false} ShowNatShort(n: nat, d: nat)
    requires d >= 1 && n < Pow10(d)
    ensures |ShowNat(n)| <= d
  {
    if n >= 10 {
      assert d >= 2;
      assert n / 10 < Pow10(d - 1);
      ShowNatShort(n / 10, d - 1);
    }
  }

  lemma ReadableIsPrintable(run: string)
    requires Readable(run)
    ensures Printable(RunValue(run))
  {
    RunValueBelow(run);
    if DigitCount(run) > 0 {
      ShowNatShort(RunValue(run), DigitCount(run));
    }
  }

  lemma {:induction false} DigitCountOfDigits(s: string)
    requires forall k :: 0 <= k < |s| ==> IsDigit(s[k])
    ensures DigitCount(s) == |s|
  {
    if s != [] {
      DigitCountOfDigits(s[..|s| - 1]);
    }
  }

  lemma {:induction false} AllDigitsIsRun(s: string)
    requires |s| > 0
    requires forall k :: 0 <= k < |s| ==> IsDigit(s[k])
    ensures IsDigitRun(s)
  {
    if |s| > 1 {
      AllDigitsIsRun(s[1..]);
    }
  }

  lemma {:induction false} RunValueOfShowNat(n: nat)
    ensures RunValue(ShowNat(n)) == n
  {
    if n >= 10 {
      var s := ShowNat(n);
      var head := ShowNat(n / 10);
      assert s == head + [DigitChar(n % 10)];
      assert s[..|s| - 1] == head;
      RunValueOfShowNat(n / 10);
    }
  }

  lemma StripOfNumeral(s: string)
    requires |s| > 0
    requires !IsSpace(s[0]) && !IsSpace(s[|s| - 1])
    ensures Strip(s) == s
  {
  }

  /** `int(str(n)) == n`: every numeral `str` prints is read back as the same number. */
  lemma ParseShowInt(n: int)
    requires Printable(n)
    ensures Parse(ShowInt(n)) == Some(n)
  {
    var m: nat := if n < 0 then -n else n;
    var digits := ShowNat(m);
    AllDigitsIsRun(digits);
    DigitCountOfDigits(digits);
    RunValueOfShowNat(m);
    var s := ShowInt(n);
    StripOfNumeral(s);
    if n < 0 {
      assert s[1..] == digits;
    }
  }

  /** Distinct numbers print as distinct texts. */
  lemma {:induction false} ShowIntInjective(a: int, b: int)
    ensures ShowInt(a) == ShowInt(b) <==> a == b
  {
    if ShowInt(a) == ShowInt(b) {
      assert (a < 0) == (b < 0);
      var sa, sb := ShowNat(Abs(a)), ShowNat(Abs(b));
      if a < 0 {
        assert sa == ShowInt(a)[1..] && sb == ShowInt(b)[1..];
      }
      assert sa == sb;
      RunValueOfShowNat(Abs(a));
      RunValueOfShowNat(Abs(b));
    }
  }

  /** Numerals `int()` accepts: blanks around, a sign, leading zeros, underscores. */
  lemma ParseExamples()
    ensures Parse(" 12\n") == Some(12)
    ensures Parse("\t1\U{b}") == Some(1)
    ensures Parse("-3") == Some(-3)
    ensures Parse("+007") == Some(7)
    ensures Parse("1_000") == Some(1000)
  {
    SpacedExample();
    TabExample();
    SignedExamples();
    UnderscoreExample();
  }

  lemma SpacedExample()
    ensures Parse(" 12\n") == Some(12)
  {
    assert " 12\n"[1..] == "12\n";
    assert "12\n"[..2] == "12";
    assert Strip(" 12\n") == "12";
    assert "12"[..1] == "1" && "12"[1..] == "2";
    assert IsDigitRun("12") && RunValue("12") == 12 && DigitCount("12") == 2;
  }

  lemma TabExample()
    ensures Parse("\t1\U{b}") == Some(1)
  {
    assert "\t1\U{b}"[1..] == "1\U{b}";
    assert "1\U{b}"[..1] == "1";
    assert Strip("\t1\U{b}") == "1";
    assert DigitCount("1") == 1;
  }

  lemma SignedExamples()
    ensures Parse("-3") == Some(-3)
    ensures Parse("+007") == Some(7)
  {
    assert Strip("-3") == "-3";
    assert "-3"[1..] == "3";
    assert DigitCount("3") == 1;
    assert Strip("+007") == "+007";
    assert "+007"[1..] == "007";
    assert "007"[..2] == "00";
    assert "00"[..1] == "0";
    assert "007"[1..] == "07" && "07"[1..] == "7";
    assert DigitCount("007") == 3;
  }

  lemma UnderscoreExample()
    ensures Parse("1_000") == Some(1000)
  {
    assert "1_000"[2..] == "000" && "000"[1..] == "00" && "00"[1..] == "0";
    assert IsDigitRun("000");
    assert IsDigitRun("1_000");
    assert "1_000"[..4] == "1_00" && "1_00"[..3] == "1_0" && "1_0"[..2] == "1_" && "1_"[..1] == "1";
    assert RunValue("1_") == 1 && DigitCount("1_") == 1;
    assert RunValue("1_00") == 100 && DigitCount("1_00") == 3;
    assert RunValue("1_000") == 1000 && DigitCount("1_000") == 4;
    assert Strip("1_000") == "1_000";
  }

  /** Texts `int()` rejects: nothing, a decimal point, doubled underscores, words,
      and a leading file separator, which `str.isspace()` accepts but `int()` does not strip. */
  lemma RejectExamples()
    ensures Parse("") == None
    ensures Parse("2.5") == None
    ensures Parse("1__0") == None
    ensures Parse("abc") == None
    ensures Parse("\U{1c}1") == None
  {
    assert Strip("\U{1c}1") == "\U{1c}1";
    assert Strip("2.5") == "2.5";
    assert Strip("1__0") == "1__0";
    assert "1__0"[2..] == "_0";
    assert Strip("abc") == "abc";
  }
}

=== FILE: pyslice.dfy ===
/** Python's step-1 slice `s[i:j]` on a list. Bounds never raise: a negative
    bound counts from the end, and every bound is then clamped into the list. */
module PySlice {

  /** Where a slice bound `i` lands in a list of length `n`. */
  function Adjust(i: int, n: nat): (b: nat)
    ensures b <= n
    ensures 0 <= i <= n ==> b == i
    ensures i < 0 && 0 <= i + n ==> b == i + n
    ensures i + n < 0 ==> b == 0
    ensures n < i ==> b == n
  {
    if i < 0 then (if i + n < 0 then 0 else i + n)
    else if i > n then n
    else i
  }

  /** `s[i:j]`. */
  function Slice<T>(s: seq<T>, i: int, j: int): (r: seq<T>)
    ensures i <= j ==> |r| <= j - i
    ensures Adjust(i, |s|) + |r| <= |s|
    ensures forall k :: 0 <= k < |r| ==> r[k] == s[Adjust(i, |s|) + k]
  {
    var lo, hi := Adjust(i, |s|), Adjust(j, |s|);
    if lo < hi then s[lo..hi] else []
  }

  /** Python's reference wording: the items whose index k satisfies lo <= k < hi
      once both bounds are adjusted, in order, and nothing when lo >= hi. */
  lemma SliceSelects<T>(s: seq<T>, i: int, j: int)
    ensures var lo, hi := Adjust(i, |s|), Adjust(j, |s|);
      |Slice(s, i, j)| == (if lo < hi then hi - lo else 0)
    ensures forall x :: x in Slice(s, i, j) ==> x in s
  {
  }

  /** Slices that meet end to end join into the slice that spans both. */
  lemma SliceJoin<T>(s: seq<T>, i: int, j: int, k: int)
    requires 0 <= i <= j <= k
    ensures Slice(s, i, j) + Slice(s, j, k) == Slice(s, i, k)
  {
    var n := |s|;
    var a, b, c := Adjust(i, n), Adjust(j, n), Adjust(k, n);
    assert a <= b <= c;
    if a < b && b < c {
      assert s[a..b] + s[b..c] == s[a..c];
    }
  }

  /** A negative bound names the same place as that bound plus the length. */
  lemma SliceFromEnd<T>(s: seq<T>, i: int, j: int)
    requires -|s| <= i < 0 && -|s| <= j < 0
    ensures Slice(s, i, j) == Slice(s, i + |s|, j + |s|)
  {
  }
}

=== FILE: quiz.dfy ===
/** POST /quizzes: picks the next quiz question at random among the stored
    questions of the requested category that were not asked before. */
module Quiz {
  import opened Wrappers
  import opened Store
  import PyInt

  /** The two kinds of Python value the "every category" test compares. */
  datatype PyValue = Str(s: string) | Int(i: int)

  /** Python `==`: a str and an int are simply unequal, never an error. */
  predicate PyEquals(a: PyValue, b: PyValue) {
    match (a, b)
    case (Str(x), Str(y)) => x == y
    case (Int(x), Int(y)) => x == y
    case _ => false
  }

  /** `data['previous_questions']`: absent, JSON null, or a list of ids. */
  datatype PreviousField = PreviousMissing | PreviousNull | PreviousIds(ids: seq<int>)

  /** `data['quiz_category']`: absent, present without an id `int()` accepts,
      or an id already passed through `int()`. */
  datatype CategoryField = CategoryMissing | CategoryUnusable | CategoryId(id: int)

  /** The JSON body; `otherKeys` counts keys the endpoint does not read. */
  datatype QuizBody = QuizBody(previous: PreviousField, category: CategoryField, otherKeys: nat)

  /** `if not data:` — no JSON at all, or an empty object. */
  predicate Falsy(body: Option<QuizBody>) {
    || body.None?
    || (body.value.previous.PreviousMissing? && body.value.category.CategoryMissing? && body.value.otherKeys == 0)
  }

  /** The endpoint as the source states it, or as its "every category" branch
      was evidently meant to work. */
  datatype Rule = AsWritten | Intended

  /** Whether the "every category" branch is taken for category text `text`.
      As written, the text is compared with the integer 0. */
  predicate EveryCategory(rule: Rule, text: string) {
    match rule
    case AsWritten => PyEquals(Str(text), Int(0))
    case Intended => text == "0"
  }

  /** A question belongs to the pool: not asked before (when a list of ids was
      sent) and in the requested category (unless every category is wanted). */
  predicate Eligible(q: Question, previous: PreviousField, text: string, every: bool) {
    && (previous.PreviousIds? ==> q.id !in previous.ids)
    && (every || q.category == text)
  }

  /** The pool the four queries of the endpoint select. */
  function Pool(db: Db, previous: PreviousField, text: string, every: bool): (r: seq<Question>)
    requires Valid(db)
    ensures forall q :: q in r <==> q.id in db.questions && db.questions[q.id] == q && Eligible(q, previous, text, every)
  {
    var rows := AllById(db.questions);
    if every then
      if !previous.PreviousNull? then Filter(rows, (q: Question) => previous.PreviousIds? ==> q.id !in previous.ids)
      else rows
    else
      if !previous.PreviousNull? then Filter(rows, (q: Question) => (previous.PreviousIds? ==> q.id !in previous.ids) && q.category == text)
      else Filter(rows, (q: Question) => q.category == text)
  }

  /** Some stored question is eligible. */
  predicate PoolNonEmpty(db: Db, previous: PreviousField, text: string, every: bool) {
    exists id :: id in db.questions && Eligible(db.questions[id], previous, text, every)
  }

  /** POST /quizzes under `rule`. `random.choice` is a nondeterministic pick from
      the pool; on an empty pool it raises IndexError, which nothing catches, so
      the reply is 500, as it is for a missing field. An id too long for `str()`
      would be a 500 too; that branch is defensive, since `int()` of a JSON string
      and the JSON decoder itself already refuse numerals of more than 4300
      digits, and `int()` of a float has at most 309. The chosen record is never
      falsy, so 404 is never sent. */
  method NextQuestion(db: Db, body: Option<QuizBody>, rule: Rule) returns (r: Result<Question>)
    requires Valid(db)
    ensures r == Err(BadRequest) <==> Falsy(body)
    ensures r.Err? ==> r.error == BadRequest || r.error == InternalServerError
    ensures r.Ok? ==> && body.Some?
                      && !body.value.previous.PreviousMissing?
                      && body.value.category.CategoryId?
                      && PyInt.Printable(body.value.category.id)
    ensures r.Ok? ==> r.value.id in db.questions && db.questions[r.value.id] == r.value
    ensures r.Ok? ==>
      var text := PyInt.ShowInt(body.value.category.id);
      Eligible(r.value, body.value.previous, text, EveryCategory(rule, text))
    ensures && !Falsy(body) && !body.value.previous.PreviousMissing?
            && body.value.category.CategoryId? && PyInt.Printable(body.value.category.id) ==>
      var text := PyInt.ShowInt(body.value.category.id);
      (r.Ok? <==> PoolNonEmpty(db, body.value.previous, text, EveryCategory(rule, text)))
  {
    if Falsy(body) {
      return Err(BadRequest);
    }
    var data := body.value;
    if data.previous.PreviousMissing? || !data.category.CategoryId? || !PyInt.Printable(data.category.id) {
      return Err(InternalServerError);
    }
    var text := PyInt.ShowInt(data.category.id);
    var pool := Pool(db, data.previous, text, EveryCategory(rule, text));
    if |pool| == 0 {
      return Err(InternalServerError);
    }
    assert pool[0] in pool;
    var q :| q in pool;
    return Ok(q);
  }

  /** As written, the "every category" branch is never taken: the category is
      text and is compared with an integer. */
  lemma EveryCategoryUnreachable(text: string)
    ensures !EveryCategory(AsWritten, text)
  {
  }

  /** As written, asking for category 0 with no previous questions finds nothing
      in a database whose only question is in category "1". */
  lemma CategoryZeroFindsNothing(q: Question)
    requires q.category == "1"
    ensures var db := Db(map[q.id := q], map[]);
      var text := PyInt.ShowInt(0);
      Pool(db, PreviousIds([]), text, EveryCategory(AsWritten, text)) == []
      && !PoolNonEmpty(db, PreviousIds([]), text, EveryCategory(AsWritten, text))
  {
    var db := Db(map[q.id := q], map[]);
    var text := PyInt.ShowInt(0);
    assert text == "0";
  }

  /** With the intended comparison, category 0 offers every stored question
      not asked before. */
  lemma IntendedCategoryZeroOffersAll(db: Db, previous: PreviousField, id: int)
    requires Valid(db)
    requires !previous.PreviousMissing?
    requires id in db.questions
    requires previous.PreviousIds? ==> id !in previous.ids
    ensures var text := PyInt.ShowInt(0);
      db.questions[id] in Pool(db, previous, text, EveryCategory(Intended, text))
  {
    assert PyInt.ShowInt(0) == "0";
  }
}

=== FILE: store.dfy ===
/** The persistence layer as seen from the endpoints: the `Question` and
    `Category` tables, keyed by primary key, and the few queries the endpoints
    issue against them. */
module Store {
  import opened Wrappers

  /** A row of the question table. `category` is a text column: it holds a
      category id printed as text, or any other text such as "delete me". */
  datatype Question = Question(id: int, question: string, answer: string, difficulty: int, category: string)

  /** A row of the category table; `typeName` is the column named `type`. */
  datatype Category = Category(id: int, typeName: string)

  /** The question table, primary key to row. */
  type Table = map<int, Question>

  /** Each row sits under its own primary key. */
  predicate KeyedById(t: Table) {
    forall id :: id in t ==> t[id].id == id
  }

  datatype Db = Db(questions: Table, categories: map<int, Category>)

  predicate Valid(db: Db) {
    && KeyedById(db.questions)
    && forall id :: id in db.categories ==> db.categories[id].id == id
  }

  predicate IsLeast(m: int, keys: set<int>) {
    m in keys && forall k :: k in keys ==> m <= k
  }

  lemma {:induction false} HasElement(keys: set<int>)
    requires keys != {}
    ensures exists m :: m in keys
  {
    if forall m :: m !in keys {
      assert false;
    }
  }

  lemma {:induction false} LeastExists(keys: set<int>)
    requires keys != {}
    ensures exists m :: IsLeast(m, keys)
  {
    HasElement(keys);
    var x :| x in keys;
    if keys == {x} {
      assert IsLeast(x, keys);
    } else {
      var rest := keys - {x};
      LeastExists(rest);
      var m :| IsLeast(m, rest);
      assert forall k :: k in keys ==> k == x || k in rest;
      if x < m {
        assert IsLeast(x, keys);
      } else {
        assert IsLeast(m, keys);
      }
    }
  }

  /** The keys in ascending order, each once. */
  function SortedIds(keys: set<int>): (r: seq<int>)
    ensures |r| == |keys|
    ensures forall k :: k in r <==> k in keys
    ensures forall a, b :: 0 <= a < b < |r| ==> r[a] < r[b]
    decreases |keys|
  {
    if keys == {} then []
    else
      LeastExists(keys);
      var m :| IsLeast(m, keys);
      [m] + SortedIds(keys - {m})
  }

  /** The rows under the given keys, in the order of the keys. */
  function RowsAt(t: Table, ids: seq<int>): (r: seq<Question>)
    requires forall i :: 0 <= i < |ids| ==> ids[i] in t
    ensures |r| == |ids|
    ensures forall i :: 0 <= i < |r| ==> r[i] == t[ids[i]]
  {
    seq(|ids|, i requires 0 <= i < |ids| => t[ids[i]])
  }

  /** `Question.query.order_by(Question.id).all()`: every row exactly once,
      in ascending id order. */
  function AllById(t: Table): (r: seq<Question>)
    requires KeyedById(t)
    ensures |r| == |t|
    ensures forall q :: q in r <==> q.id in t && t[q.id] == q
    ensures forall a, b :: 0 <= a < b < |r| ==> r[a].id < r[b].id
  {
    var ids := SortedIds(t.Keys);
    assert forall i :: 0 <= i < |ids| ==> ids[i] in t by {
      forall i | 0 <= i < |ids|
        ensures ids[i] in t
      {
        assert ids[i] in ids;
      }
    }
    var r := RowsAt(t, ids);
    assert forall q: Question :: q in r ==> q.id in t && t[q.id] == q by {
      forall q: Question | q in r
        ensures q.id in t && t[q.id] == q
      {
        var i :| 0 <= i < |r| && r[i] == q;
        assert ids[i] in ids;
      }
    }
    assert forall q: Question :: q.id in t && t[q.id] == q ==> q in r by {
      forall q: Question | q.id in t && t[q.id] == q
        ensures q in r
      {
        assert q.id in ids;
        var i :| 0 <= i < |ids| && ids[i] == q.id;
        assert r[i] == q;
      }
    }
    assert forall a, b :: 0 <= a < b < |r| ==> r[a].id < r[b].id by {
      forall a, b | 0 <= a < b < |r|
        ensures r[a].id < r[b].id
      {
        assert ids[a] in ids && ids[b] in ids;
        assert r[a].id == ids[a] && r[b].id == ids[b];
      }
    }
    r
  }

  /** A row appears in the ordered listing at exactly one position. */
  lemma ListedOnce(t: Table, q: Question)
    requires KeyedById(t)
    requires q.id in t && t[q.id] == q
    ensures q in AllById(t)
    ensures forall a, b :: 0 <= a < |AllById(t)| && 0 <= b < |AllById(t)| && AllById(t)[a] == q && AllById(t)[b] == q ==> a == b
  {
  }

  /** `query.filter(...)`: the records of `s` that satisfy `keep`, in order. */
  function Filter(s: seq<Question>, keep: Question -> bool): (r: seq<Question>)
    ensures |r| <= |s|
    ensures forall x :: x in r <==> x in s && keep(x)
  {
    if s == [] then []
    else (if keep(s[0]) then [s[0]] else []) + Filter(s[1..], keep)
  }

  /** Filtering a list of strictly increasing ids keeps the ids strictly increasing. */
  lemma {:induction false} FilterKeepsOrder(s: seq<Question>, keep: Question -> bool)
    requires forall a, b :: 0 <= a < b < |s| ==> s[a].id < s[b].id
    ensures forall a, b :: 0 <= a < b < |Filter(s, keep)| ==> Filter(s, keep)[a].id < Filter(s, keep)[b].id
  {
    if s != [] {
      FilterKeepsOrder(s[1..], keep);
      var rest := Filter(s[1..], keep);
      assert forall x :: x in rest ==> x in s[1..];
      assert forall b :: 0 <= b < |rest| ==> s[0].id < rest[b].id by {
        forall b | 0 <= b < |rest|
          ensures s[0].id < rest[b].id
        {
          assert rest[b] in s[1..];
          var c :| 0 <= c < |s[1..]| && s[1..][c] == rest[b];
          assert s[c + 1] == rest[b];
        }
      }
    }
  }

  function IdsOf(s: seq<Question>): set<int> {
    set q | q in s :: q.id
  }

  /** A list with strictly increasing ids has as many records as distinct ids. */
  lemma {:induction false} CountDistinctIds(s: seq<Question>)
    requires forall a, b :: 0 <= a < b < |s| ==> s[a].id < s[b].id
    ensures |IdsOf(s)| == |s|
  {
    if s != [] {
      CountDistinctIds(s[1..]);
      assert IdsOf(s) == {s[0].id} + IdsOf(s[1..]) by {
        assert forall q :: q in s <==> q == s[0] || q in s[1..];
      }
      assert s[0].id !in IdsOf(s[1..]) by {
        forall q | q in s[1..]
          ensures q.id != s[0].id
        {
          var c :| 0 <= c < |s[1..]| && s[1..][c] == q;
          assert s[c + 1] == q;
        }
      }
    }
  }

  /** The rows of the table whose record satisfies `keep`, by primary key. */
  function KeysWhere(t: Table, keep: Question -> bool): set<int> {
    set id | id in t && keep(t[id])
  }

  /** `len(query.filter(...).all())`: the size of a filtered listing is the number
      of rows in the table that satisfy the filter. */
  lemma FilteredCount(t: Table, keep: Question -> bool)
    requires KeyedById(t)
    ensures |Filter(AllById(t), keep)| == |KeysWhere(t, keep)|
  {
    var r := Filter(AllById(t), keep);
    FilterKeepsOrder(AllById(t), keep);
    CountDistinctIds(r);
    assert IdsOf(r) == KeysWhere(t, keep) by {
      forall id | id in KeysWhere(t, keep)
        ensures id in IdsOf(r)
      {
        assert t[id] in r;
      }
    }
  }

  /** `Question.query.get(id)`. */
  function Get(t: Table, id: int): (r: Option<Question>)
    requires KeyedById(t)
    ensures r.Some? <==> id in t
    ensures r.Some? ==> r.value.id == id && t[id] == r.value
  {
    if id in t then Some(t[id]) else None
  }

  /** `question.insert()`: adds the row, or fails (`None`) when its primary key is
      already taken. */
  function Insert(t: Table, q: Question): (r: Option<Table>)
    requires KeyedById(t)
    ensures r.Some? <==> q.id !in t
    ensures r.Some? ==> KeyedById(r.value)
    ensures r.Some? ==> r.value.Keys == t.Keys + {q.id} && r.value[q.id] == q
    ensures r.Some? ==> forall id :: id in t ==> r.value[id] == t[id]
  {
    if q.id in t then None else Some(t[q.id := q])
  }

  /** `question.delete()` on a row that exists. */
  function Remove(t: Table, id: int): (r: Table)
    requires KeyedById(t)
    requires id in t
    ensures KeyedById(r)
    ensures r.Keys == t.Keys - {id}
    ensures forall other :: other in r ==> r[other] == t[other]
    ensures |r| == |t| - 1
  {
    t - {id}
  }
}

=== FILE: text.dfy ===
/** Case-insensitive substring search, the meaning of `column ILIKE '%term%'`
    for a term without wildcard characters, with ASCII case folding. */
module Text {

  function LowerChar(c: char): char {
    if 'A' <= c <= 'Z' then (c as int - 'A' as int + 'a' as int) as char else c
  }

  function Lower(s: string): (r: string)
    ensures |r| == |s|
  {
    seq(|s|, k requires 0 <= k < |s| => LowerChar(s[k]))
  }

  function UpperChar(c: char): char {
    if 'a' <= c <= 'z' then (c as int - 'a' as int + 'A' as int) as char else c
  }

  function Upper(s: string): (r: string)
    ensures |r| == |s|
  {
    seq(|s|, k requires 0 <= k < |s| => UpperChar(s[k]))
  }

  /** `term` sits in `text` starting at position `i`. */
  predicate OccursAt(text: string, term: string, i: int) {
    0 <= i && i + |term| <= |text| && text[i..i + |term|] == term
  }

  /** Substring test by scanning `text` from the left. */
  function Contains(text: string, term: string): (b: bool)
    ensures b <==> exists i :: OccursAt(text, term, i)
    decreases |text|
  {
    if term <= text then
      assert OccursAt(text, term, 0);
      true
    else if |text| == 0 then
      false
    else
      var b := Contains(text[1..], term);
      if b then
        var i :| OccursAt(text[1..], term, i);
        assert OccursAt(text, term, i + 1) by {
          assert text[i + 1..i + 1 + |term|] == text[1..][i..i + |term|];
        }
        true
      else
        assert !OccursAt(text, term, 0) by {
          if |term| <= |text| {
            assert text[0..|term|] == text[..|term|];
          }
        }
        assert forall i :: OccursAt(text, term, i) ==> OccursAt(text[1..], term, i - 1) by {
          forall i | OccursAt(text, term, i)
            ensures OccursAt(text[1..], term, i - 1)
          {
            assert text[1..][i - 1..i - 1 + |term|] == text[i..i + |term|];
          }
        }
        false
  }

  /** `text ILIKE '%term%'`: the case-folded term occurs somewhere in the
      case-folded text. */
  function ContainsIgnoringCase(text: string, term: string): (b: bool)
    ensures b <==> exists i :: OccursAt(Lower(text), Lower(term), i)
    ensures term == [] ==> b
  {
    assert term == [] ==> OccursAt(Lower(text), Lower(term), 0);
    Contains(Lower(text), Lower(term))
  }

  lemma LowerOfUpper(s: string)
    ensures Lower(Upper(s)) == Lower(s)
  {
  }

  lemma LowerIdempotent(s: string)
    ensures Lower(Lower(s)) == Lower(s)
  {
  }

  /** The match ignores the case of either side: re-casing the term or the text
      changes nothing. */
  lemma CaseDoesNotMatter(text: string, term: string)
    ensures ContainsIgnoringCase(text, term) <==> ContainsIgnoringCase(text, Upper(term))
    ensures ContainsIgnoringCase(text, term) <==> ContainsIgnoringCase(text, Lower(term))
    ensures ContainsIgnoringCase(text, term) <==> ContainsIgnoringCase(Upper(text), term)
  {
    LowerOfUpper(term);
    LowerIdempotent(term);
    LowerOfUpper(text);
  }

  /** The term is always found in a text that contains it, whatever surrounds it. */
  lemma FoundInside(before: string, term: string, after: string)
    ensures ContainsIgnoringCase(before + term + after, term)
  {
    var text := before + term + after;
    assert Lower(text)[|before|..|before| + |term|] == Lower(term);
    assert OccursAt(Lower(text), Lower(term), |before|);
  }

  /** Searching "elephant" finds a question that says "Elephant". */
  lemma ElephantExample()
    ensures ContainsIgnoringCase("Which Elephant is largest?", "elephant")
  {
    var text := "Which " + "Elephant" + " is largest?";
    assert text == "Which Elephant is largest?";
    FoundInside("Which ", "Elephant", " is largest?");
    assert Lower("Elephant") == Lower("elephant");
  }

  /** Example: "bee" does not match "Ant". */
  lemma AbsentExample()
    ensures !ContainsIgnoringCase("Ant", "bee")
  {
    assert Lower("Ant") == "ant";
    assert Lower("bee") == "bee";
    forall i
      ensures !OccursAt("ant", "bee", i)
    {
      if 0 <= i && i + 3 <= 3 {
        assert "ant"[i..i + 3] == "ant";
      }
    }
  }
}

=== FILE: trivia.dfy ===
/** The question endpoints of the Flask application: listing with paging,
    deletion, creation and search on one POST route, and listing by category.
    Each endpoint is a function of the database it runs against and returns
    its reply together with the database it leaves behind. */
module Trivia {
  import opened Wrappers
  import opened Store
  import opened Paging
  import Text
  import PyInt

  /** The row `get_questions` adds when the requested page comes out empty.
      Its category is not the printed form of any category id. */
  function Placeholder(id: int): (q: Question)
    ensures q.id == id
    ensures forall n :: q.category != PyInt.ShowInt(n)
  {
    var q := Question(id, "There Seems to be no Trivia!", "Go and add some !", 1, "delete me");
    assert forall n :: q.category != PyInt.ShowInt(n) by {
      forall n
        ensures q.category != PyInt.ShowInt(n)
      {
        assert q.category[0] == 'd';
      }
    }
    q
  }

  /** A reply and the database after the request. */
  datatype Step<R> = Step(reply: R, db: Db)

  /** `{category.id: category.type}` over the category table. */
  function CategoryLabels(cats: map<int, Category>): (r: map<int, string>)
    ensures r.Keys == cats.Keys
    ensures forall id :: id in r ==> r[id] == cats[id].typeName
  {
    map id | id in cats :: cats[id].typeName
  }

  // ---------------------------------------------------------------- GET /questions

  datatype Listing = Listing(totalQuestions: nat, categories: map<int, string>, questions: seq<Question>)

  /** GET /questions?page=N. The reply describes the table as it was on entry,
      even when the request itself seeded the placeholder row. `freshId` is the
      key the database would give that row; inserting under a taken key fails,
      which the endpoint reports as 404. */
  function GetQuestions(db: Db, page: Option<string>, freshId: int): (r: Result<Step<Listing>>)
    requires Valid(db)
    ensures r.Err? <==> Paginate(PageNumber(page), AllById(db.questions)) == [] && freshId in db.questions
    ensures r.Err? ==> r.error == NotFound
    ensures r.Ok? ==> Valid(r.value.db) && r.value.db.categories == db.categories
    ensures r.Ok? ==> r.value.reply.totalQuestions == |db.questions|
    ensures r.Ok? ==> r.value.reply.questions == Paginate(PageNumber(page), AllById(db.questions))
    ensures r.Ok? ==> r.value.reply.categories == CategoryLabels(db.categories)
    ensures r.Ok? && r.value.reply.questions != [] ==> r.value.db == db
    ensures r.Ok? && r.value.reply.questions == [] ==>
      r.value.db.questions == db.questions[freshId := Placeholder(freshId)] && freshId !in db.questions
  {
    var questions := AllById(db.questions);
    var paged := Paginate(PageNumber(page), questions);
    var listing := Listing(|questions|, CategoryLabels(db.categories), paged);
    if paged == [] then
      match Insert(db.questions, Placeholder(freshId))
      case None => Err(NotFound)
      case Some(t) => Ok(Step(listing, db.(questions := t)))
    else
      Ok(Step(listing, db))
  }

  /** An empty page seeds exactly one row, the placeholder, and touches nothing else. */
  lemma EmptyPageSeedsOnePlaceholder(db: Db, page: Option<string>, freshId: int)
    requires Valid(db)
    requires freshId !in db.questions
    requires Paginate(PageNumber(page), AllById(db.questions)) == []
    ensures var r := GetQuestions(db, page, freshId);
      && r.Ok?
      && r.value.db.questions.Keys == db.questions.Keys + {freshId}
      && |r.value.db.questions| == |db.questions| + 1
      && r.value.db.questions[freshId].category == "delete me"
      && (forall id :: id in db.questions ==> r.value.db.questions[id] == db.questions[id])
      && r.value.reply.totalQuestions == |db.questions|
  {
  }

  /** `?page=0` always asks for the empty slice `[-10:0]`, so every such request
      seeds another placeholder, however many questions exist. */
  lemma PageZeroAlwaysSeeds(db: Db, freshId: int)
    requires Valid(db)
    requires freshId !in db.questions
    ensures var r := GetQuestions(db, Some("0"), freshId);
      r.Ok? && r.value.reply.questions == [] && |r.value.db.questions| == |db.questions| + 1
  {
    PageNumberOfNumeral(0);
    assert PyInt.ShowInt(0) == "0";
    PageZeroIsEmpty(AllById(db.questions));
  }

  /** From page 1 on, a request leaves the table alone exactly when its page
      starts inside the list. */
  lemma ListingIsReadOnlyIff(db: Db, page: int, freshId: int)
    requires Valid(db)
    requires page >= 1 && PyInt.Printable(page)
    requires freshId !in db.questions
    ensures var r := GetQuestions(db, Some(PyInt.ShowInt(page)), freshId);
      r.Ok? && (r.value.db == db <==> PageStart(page) < |db.questions|)
  {
    PageNumberOfNumeral(page);
    PageEmptyIff(page, AllById(db.questions));
    var r := GetQuestions(db, Some(PyInt.ShowInt(page)), freshId);
    if PageStart(page) >= |db.questions| {
      assert freshId in r.value.db.questions;
    }
  }

  // ---------------------------------------------------------------- DELETE /questions/<id>

  /** DELETE /questions/<id>: removes that row and nothing else; an id without a
      row makes `None.delete()` raise, which is reported as 404. The route only
      accepts non-negative ids. */
  function DeleteQuestion(db: Db, id: nat): (r: Result<Db>)
    requires Valid(db)
    ensures r.Ok? <==> id in db.questions
    ensures r.Err? ==> r.error == NotFound
    ensures r.Ok? ==> Valid(r.value) && r.value.categories == db.categories
    ensures r.Ok? ==> r.value.questions.Keys == db.questions.Keys - {id}
    ensures r.Ok? ==> forall other :: other in r.value.questions ==> r.value.questions[other] == db.questions[other]
  {
    match Get(db.questions, id)
    case None => Err(NotFound)
    case Some(q) => Ok(db.(questions := Remove(db.questions, q.id)))
  }

  /** Deleting the same id twice succeeds, then reports 404. */
  lemma DeleteTwice(db: Db, id: nat)
    requires Valid(db)
    requires id in db.questions
    ensures DeleteQuestion(db, id).Ok?
    ensures DeleteQuestion(DeleteQuestion(db, id).value, id) == Err(NotFound)
  {
  }

  // ---------------------------------------------------------------- POST /questions

  /** The JSON body of POST /questions, after `data.get` supplied its defaults. */
  datatype PostBody = PostBody(question: string, answer: string, difficulty: int, category: string, searchTerm: Option<string>)

  datatype PostReply =
    | Searched(questions: seq<Question>, totalQuestions: nat, currentCategory: Option<string>)
    | Created(created: int, questions: seq<Question>, totalQuestions: nat)

  /** `if search_term:` — a search happens only for a present, non-empty term. */
  predicate Searches(body: PostBody) {
    body.searchTerm.Some? && body.searchTerm.value != ""
  }

  /** `Question.question.ilike('%term%')` as a filter. */
  function MatchesTerm(term: string): Question -> bool {
    (q: Question) => Text.ContainsIgnoringCase(q.question, term)
  }

  /** The row a create request inserts. */
  function NewRow(body: PostBody, id: int): Question {
    Question(id, body.question, body.answer, body.difficulty, body.category)
  }

  /** The search's full match list, before paging. */
  function Matches(db: Db, term: string): seq<Question>
    requires Valid(db)
  {
    Filter(AllById(db.questions), MatchesTerm(term))
  }

  /** POST /questions. A missing JSON body makes `data.get` raise outside the
      `try`, a 500; a failed insert is reported as 422. */
  function PostQuestion(db: Db, body: Option<PostBody>, page: Option<string>, freshId: int): (r: Result<Step<PostReply>>)
    requires Valid(db)
    ensures body.None? <==> r == Err(InternalServerError)
    ensures body.Some? && Searches(body.value) ==> r.Ok? && r.value.db == db && r.value.reply.Searched?
    ensures body.Some? && !Searches(body.value) ==> (r.Err? <==> freshId in db.questions)
    ensures body.Some? && r.Err? ==> r.error == Unprocessable
    ensures r.Ok? ==> Valid(r.value.db) && r.value.db.categories == db.categories
    ensures r.Ok? ==> body.Some? && (r.value.reply.Searched? <==> Searches(body.value))
    ensures body.Some? && Searches(body.value) ==>
      var term := body.value.searchTerm.value;
      && r.value.reply.currentCategory.None?
      && |r.value.reply.questions| <= TriviaPerPage
      && (forall q :: q in r.value.reply.questions ==>
            q.id in db.questions && db.questions[q.id] == q && Text.ContainsIgnoringCase(q.question, term))
      && r.value.reply.questions == Paginate(PageNumber(page), Matches(db, term))
      && r.value.reply.totalQuestions == |Matches(db, term)|
      && r.value.reply.totalQuestions == |KeysWhere(db.questions, MatchesTerm(term))|
    ensures r.Ok? && r.value.reply.Created? ==>
      && r.value.reply.created == freshId
      && r.value.db.questions == db.questions[freshId := NewRow(body.value, freshId)]
      && r.value.reply.totalQuestions == |db.questions| + 1
      && r.value.reply.questions == Paginate(PageNumber(page), AllById(r.value.db.questions))
  {
    match body
    case None => Err(InternalServerError)
    case Some(b) =>
      if Searches(b) then
        var matches := Matches(db, b.searchTerm.value);
        FilteredCount(db.questions, MatchesTerm(b.searchTerm.value));
        Ok(Step(Searched(Paginate(PageNumber(page), matches), |matches|, None), db))
      else
        match Insert(db.questions, NewRow(b, freshId))
        case None => Err(Unprocessable)
        case Some(t) =>
          var questions := AllById(t);
          Ok(Step(Created(freshId, Paginate(PageNumber(page), questions), |t|), db.(questions := t)))
  }

  /** Every stored question whose text contains the term is among the matches
      and is served on some page of them. */
  lemma SearchFindsEveryMatch(db: Db, term: string, id: int)
    requires Valid(db)
    requires id in db.questions && Text.ContainsIgnoringCase(db.questions[id].question, term)
    ensures db.questions[id] in Matches(db, term)
    ensures exists page :: page >= 1 && db.questions[id] in Paginate(page, Matches(db, term))
  {
    var q := db.questions[id];
    var m := Matches(db, term);
    assert MatchesTerm(term)(q);
    assert q in m;
    var i :| 0 <= i < |m| && m[i] == q;
    EveryRecordHasPage(m, i);
    assert i / TriviaPerPage + 1 >= 1;
  }

  /** An empty search term creates a question instead of searching. */
  lemma EmptyTermCreates(db: Db, body: PostBody, freshId: int)
    requires Valid(db)
    requires body.searchTerm == Some("")
    requires freshId !in db.questions
    ensures var r := PostQuestion(db, Some(body), None, freshId);
      r.Ok? && r.value.reply.Created? && freshId in r.value.db.questions
  {
  }

  /** A created question can be fetched by the id the reply names, and the
      id-ordered listing holds it exactly once. */
  lemma CreatedIsListedOnce(db: Db, body: PostBody, page: Option<string>, freshId: int)
    requires Valid(db)
    requires !Searches(body)
    requires freshId !in db.questions
    ensures var r := PostQuestion(db, Some(body), page, freshId);
      && r.Ok? && r.value.reply.Created?
      && Get(r.value.db.questions, r.value.reply.created) == Some(NewRow(body, freshId))
      && var listed := AllById(r.value.db.questions);
         && NewRow(body, freshId) in listed
         && forall a, b :: 0 <= a < |listed| && 0 <= b < |listed| && listed[a] == NewRow(body, freshId) && listed[b] == NewRow(body, freshId) ==> a == b
  {
    var r := PostQuestion(db, Some(body), page, freshId);
    ListedOnce(r.value.db.questions, NewRow(body, freshId));
  }

  // ---------------------------------------------------------------- GET /categories/<id>/questions

  datatype CategoryListing = CategoryListing(questions: seq<Question>, totalQuestions: nat, currentCategory: string)

  /** `Question.category == text` as a filter. */
  function HasCategory(text: string): Question -> bool {
    (q: Question) => q.category == text
  }

  /** The category selection, before paging. */
  function InCategory(db: Db, text: string): seq<Question>
    requires Valid(db)
  {
    Filter(AllById(db.questions), HasCategory(text))
  }

  /** GET /categories/<category_id>/questions. The route only accepts
      non-negative ids; the id is compared with the category column as text.
      An id too long for `str()` would raise inside the `try`, which reports 422.
      That branch is defensive: the route converts the id with `int()`, which
      already refuses numerals of more than 4300 digits, so no request reaches it. */
  function QuestionsInCategory(db: Db, categoryId: nat, page: Option<string>): (r: Result<CategoryListing>)
    requires Valid(db)
    ensures r.Ok? <==> PyInt.Printable(categoryId)
    ensures r.Err? ==> r.error == Unprocessable
    ensures r.Ok? ==> r.value.currentCategory == PyInt.ShowInt(categoryId)
    ensures r.Ok? ==> |r.value.questions| <= TriviaPerPage
    ensures r.Ok? ==> forall q :: q in r.value.questions ==>
      q.id in db.questions && db.questions[q.id] == q && q.category == r.value.currentCategory
    ensures r.Ok? ==> r.value.questions == Paginate(PageNumber(page), InCategory(db, r.value.currentCategory))
    ensures r.Ok? ==> r.value.totalQuestions == |InCategory(db, r.value.currentCategory)|
    ensures r.Ok? ==> r.value.totalQuestions == |KeysWhere(db.questions, HasCategory(r.value.currentCategory))|
  {
    if !PyInt.Printable(categoryId) then Err(Unprocessable)
    else
      var text := PyInt.ShowInt(categoryId);
      var selection := InCategory(db, text);
      FilteredCount(db.questions, HasCategory(text));
      Ok(CategoryListing(Paginate(PageNumber(page), selection), |selection|, text))
  }

  /** Two different category ids never select the same question. */
  lemma CategoriesAreDisjoint(db: Db, a: nat, b: nat)
    requires Valid(db)
    requires a != b
    ensures forall q :: q in InCategory(db, PyInt.ShowInt(a)) ==> q !in InCategory(db, PyInt.ShowInt(b))
  {
    PyInt.ShowIntInjective(a, b);
  }

  /** Every stored question of a category is listed on some page of it. */
  lemma CategoryListsEveryMember(db: Db, categoryId: nat, id: int)
    requires Valid(db)
    requires id in db.questions && db.questions[id].category == PyInt.ShowInt(categoryId)
    ensures exists page :: page >= 1 && db.questions[id] in Paginate(page, InCategory(db, PyInt.ShowInt(categoryId)))
  {
    var sel := InCategory(db, PyInt.ShowInt(categoryId));
    assert HasCategory(PyInt.ShowInt(categoryId))(db.questions[id]);
    assert db.questions[id] in sel;
    var i :| 0 <= i < |sel| && sel[i] == db.questions[id];
    EveryRecordHasPage(sel, i);
    assert i / TriviaPerPage + 1 >= 1;
  }
}

=== FILE: wrappers.dfy ===
/** Small failure-carrying datatypes shared by the rest of the model. */
module Wrappers {

  /** A value that may be absent: a missing query argument, a row `get` did not find. */
  datatype Option<+T> = None | Some(value: T) {

    /** The carried value, or `default` when there is none. */
    function GetOr(default: T): T {
      match this
      case Some(v) => v
      case None => default
    }
  }

  /** The HTTP statuses the endpoints end with when they do not succeed. */
  datatype HttpError =
    | BadRequest           // 400
    | NotFound             // 404
    | Unprocessable        // 422
    | InternalServerError  // 500

  /** What an endpoint produces: a value, or the status it aborted with. */
  datatype Result<+T> = Ok(value: T) | Err(error: HttpError)
}
